=== FILE: README.md ===
# FoodGuard scan simulator and incident-report form, in Dafny

This project models the two pieces of state logic in the FoodGuard demo front end.

- **The scan simulator** (`ScannerInterface` component, module `ScannerInterface`). The component has three state cells: `scanStatus`, `progress` and `result`.
  - `startScan` opens a session at the connect prompt.
  - `connectScanner` walks the fixed chain connecting → waiting-scan → scanning → sending-data → processing → complete. It writes the progress checkpoints 15, 40, 65, 85, 95 and 100. At the end it draws one of three canned outcomes.
  - `resetScan` returns to idle.
  - The render offers each handler in exactly one status, so the reachable states form one cycle.

  The cells are the fields of the class `Scanner`. Each pause (`await`) of `connectScanner` is a step boundary: `ConnectScanner` is the part before the first pause, and `Resume` is whichever part runs once the pending pause has elapsed. The draw `Math.random()` becomes an injected real `r` with `0 <= r < 1`. Two ghost fields record every value passed to `setScanStatus` and `setProgress` since the session began. Through them, the order of the writes, including the 95 that is overwritten by 100 in the same segment, is part of the proved state.
- **The incident-report form** (`ReportingTool` component, module `ReportingTool`). `formData` is a six-field string record. The record is a value (`FormData`) and the updater `prev => ({...prev, [field]: value})` is the function `Update`. The state cell that holds the record is the class `ReportingForm`: `handleInputChange` replaces the record with an updated copy, and `handleSubmit` replaces it with the empty record. Submission has no failure path.

The simulated pauses in the code add up to 11000 ms (2000 + 3000 + 2500 + 1500 + 2000); the model follows the code (`Pause`, and the ghost clock `elapsed` that `FullSession` ends at 11000).

## Model

| member | source | states |
|---|---|---|
| `ScannerInterface.Rank` | src/components/ScannerInterface.tsx:17 | each status has one position in the cycle idle, connect-prompt, …, complete |
| `ScannerInterface.RankInjective` | src/components/ScannerInterface.tsx:17 | two statuses with the same position are the same status |
| `ScannerInterface.Successor` | src/components/ScannerInterface.tsx:32-93 | the one available action (a control, or the pending continuation) moves exactly one place forward round the cycle; complete wraps to idle |
| `ScannerInterface.AdvanceRank` | src/components/ScannerInterface.tsx:32-93 | after n actions the status is n places further round the 8-status cycle |
| `ScannerInterface.AdvanceFromIdle` | src/components/ScannerInterface.tsx:32-93 | from idle, the n-th status visited is the n-th of the cycle (mod 8), so there is no skip and no repeat; the session is back at idle exactly when n is a multiple of 8 |
| `ScannerInterface.OfferedControl` | src/components/ScannerInterface.tsx:197-238 | Start Scan is offered only in idle, Connect Scanner only in connect-prompt, New Scan only in complete; no control is offered exactly while a pause is pending |
| `ScannerInterface.ControlOfferedOnce` | src/components/ScannerInterface.tsx:197-238 | no control is offered in two different statuses |
| `ScannerInterface.Checkpoint` | src/components/ScannerInterface.tsx:34-86 | the progress shown in each status is at most 100, is 100 exactly at complete, and is 0 exactly in idle, connect-prompt and connecting |
| `ScannerInterface.CheckpointMonotone` | src/components/ScannerInterface.tsx:43-86 | progress never decreases along the cycle |
| `ScannerInterface.CheckpointStrictDuringRun` | src/components/ScannerInterface.tsx:43-86 | from connecting on, each later phase shows strictly more progress |
| `ScannerInterface.SessionStatuses` | src/components/ScannerInterface.tsx:33-86 | the statuses written so far in a session are the cycle from connect-prompt up to the current status, each at its own position, ending at the current status |
| `ScannerInterface.ProgressWriteCount` | src/components/ScannerInterface.tsx:34-85 | in every status of a session at least one and at most seven progress values have been written |
| `ScannerInterface.SessionProgressRises` | src/components/ScannerInterface.tsx:34-85 | the progress values written so far rise strictly, never exceed 100, end at the value shown for the current status, and include 100 only at complete |
| `ScannerInterface.Pause` | src/components/ScannerInterface.tsx:42-58 | the pause awaited in each pending status is the delay at that status's place in the run: 2000 ms in connecting, 3000 in waiting-scan, 2500 in scanning, 1500 in sending-data, 2000 in processing |
| `ScannerInterface.PickIndex` | src/components/ScannerInterface.tsx:83 | `floor(r * results.length)` for `0 <= r < 1` is a valid catalog index i with i <= 3r < i + 1 |
| `ScannerInterface.PickCoversCatalog` | src/components/ScannerInterface.tsx:62-83 | every catalog entry i is drawn by the injected value r = i/3 |
| `ScannerInterface.CatalogEntries` | src/components/ScannerInterface.tsx:62-81 | the catalog is safe/96/2 recommendations, warning/78/3, danger/92/3, in that order |
| `ScannerInterface.ResultVariant` | src/components/ScannerInterface.tsx:127-136 | every result type has a badge variant among success, warning and danger; safe shows as success, and warning and danger show under their own names |
| `ScannerInterface.ResultVariantInjective` | src/components/ScannerInterface.tsx:127-136 | distinct result types get distinct badge variants |
| `ScannerInterface.Scanner.constructor` | src/components/ScannerInterface.tsx:28-30 | the cells start as idle, 0 and no result, which satisfies the render invariant |
| `ScannerInterface.Scanner.SetScanStatus` | src/components/ScannerInterface.tsx:28 | the `setScanStatus` setter: the cell takes the value and the value is appended to the session's status log |
| `ScannerInterface.Scanner.SetProgress` | src/components/ScannerInterface.tsx:29 | the `setProgress` setter: the cell takes the value and the value is appended to the session's progress log |
| `ScannerInterface.Scanner.StartScan` | src/components/ScannerInterface.tsx:32-36 | from any valid state the cells become connect-prompt, 0 and no result, and a new session's write log begins |
| `ScannerInterface.Scanner.ConnectScanner` | src/components/ScannerInterface.tsx:38-42 | from connect-prompt the status becomes connecting; progress and result are unchanged |
| `ScannerInterface.Scanner.Resume` | src/components/ScannerInterface.tsx:42-86 | each resumption moves to the next status and strictly raises progress to that status's checkpoint; the result stays absent until complete and is then the catalog entry the draw selects; the writes 95 and 100 happen only in the last resumption; the ghost clock advances by the pause that just elapsed |
| `ScannerInterface.Scanner.ResetScan` | src/components/ScannerInterface.tsx:89-93 | from any valid state the cells become idle, 0 and no result, and the session's write log and clock are closed; the new state does not depend on the old one, so resetting twice is resetting once |
| `ScannerInterface.Scanner.Step` | src/components/ScannerInterface.tsx:197-238 | taking whatever the render allows in the current status (its one control, or the pending continuation) moves the object to the successor status with that status's progress, so repeated steps follow the cycle of `AdvanceFromIdle` |
| `ScannerInterface.FullSession` | src/components/ScannerInterface.tsx:32-86 | start, connect and five resumptions write exactly the statuses connect-prompt … complete and the progress values 0, 15, 40, 65, 85, 95, 100, in order, and end with the drawn catalog entry after 11000 ms of pauses |
| `ReportingTool.FieldsDetermineForm` | src/components/ReportingTool.tsx:22-29 | a form record is determined by its six fields |
| `ReportingTool.EmptyForm` | src/components/ReportingTool.tsx:22-29 | all six fields of the initial record are empty |
| `ReportingTool.Update` | src/components/ReportingTool.tsx:57 | the updated record holds the new value in the chosen field and the old values in the other five |
| `ReportingTool.UpdatesCommute` | src/components/ReportingTool.tsx:57 | updates of two different fields commute |
| `ReportingTool.LastUpdateWins` | src/components/ReportingTool.tsx:57 | of two updates to one field only the last is kept |
| `ReportingTool.UpdateWithSameValue` | src/components/ReportingTool.tsx:57 | writing back a field's current value leaves the record unchanged |
| `ReportingTool.SymptomsChangeOnlyThroughTheirField` | src/components/ReportingTool.tsx:112-130 | of the six field updates only the `symptoms` update changes the symptom text (the badges have no handler; the textarea at line 128 is the only caller); the submit reset also clears it |
| `ReportingTool.FoodTypeOptionsDistinct` | src/components/ReportingTool.tsx:99-107 | the food-type selector offers seven distinct values |
| `ReportingTool.ReportingForm.constructor` | src/components/ReportingTool.tsx:22-29 | the form starts empty |
| `ReportingTool.ReportingForm.HandleInputChange` | src/components/ReportingTool.tsx:56-58 | the chosen field takes the value and the other five fields are unchanged |
| `ReportingTool.ReportingForm.HandleSubmit` | src/components/ReportingTool.tsx:36-54 | submission cannot fail and leaves every field empty whatever the form held, so it is idempotent |
| `ReportingTool.ReportingForm.SelectFoodType` | src/components/ReportingTool.tsx:95-107 | choosing from the selector puts one of the seven offered values into `foodType` and changes nothing else |

## Left out

- Rendering: the JSX, icons (`getStatusIcon`, `getResultIcon`), CSS classes, the scanner image and the photo-upload box. They are presentation and have no handler.
- Wall-clock time: `setTimeout` pauses become step boundaries. The delays are kept as `PhaseDelays` and added to a ghost clock, not as real time.
- React batching: the model assumes React 18's automatic batching, so the setters of one segment are applied in order and rendered together. The intermediate progress 95 is never rendered, since 100 overwrites it in the same segment; the model keeps it only in the ghost write log. Legacy unbatched rendering would also show connecting with progress 15, and 95; the model does not cover that.
- `Math.random()` and floating point: the draw is an injected real in [0, 1), and `r * 3` and `floor` are exact real arithmetic. The largest double below 1 times 3 still rounds below 3, so the same index bound holds for the doubles.
- Handlers called while a pause is pending, and unmounting mid-run. The render offers no control in those statuses, so the model gives `Resume` sole control there.
- ScannerInterface.Scanner.ConnectScanner: requires the connect-prompt status, although the TypeScript function has no guard. Its only caller is the button rendered in that status. From any other status the invariant `Valid()` would break: from waiting-scan onward progress is already above 0, from complete a result is already set, and from idle or connecting the session's write log lacks the connect-prompt write or repeats connecting.
- The `toast` confirmation of `handleSubmit` and `e.preventDefault()`: foreign UI calls with no effect on the form state.
- The untyped `field: string` key of `handleInputChange`: modelled as the six-valued `Field`, the only keys the form passes.
- The eight symptom badges: a static list rendered with no handler, so they have no effect on the form.
- The education catalog, the hero banner, the header and the page layout: static content with no logic.

=== FILE: reporting_tool.dfy ===
/**
 * The incident-report form of the ReportingTool component: the `formData`
 * state cell holding a six-field string record, the copy-with-one-field
 * updater of `handleInputChange`, and the reset of `handleSubmit`.
 */
module ReportingTool {

  /** The six keys of `formData`; `handleInputChange` is only ever called with one of them. */
  datatype Field = FoodType | Symptoms | Location | Date | Description | Contact

  /** The record held by `formData`. It is replaced whole, never changed in place. */
  datatype FormData = FormData(
    foodType: string,
    symptoms: string,
    location: string,
    date: string,
    description: string,
    contact: string)

  /** The values the food-type selector offers. */
  const FoodTypeOptions: seq<string> :=
    ["meat", "seafood", "dairy", "vegetables", "beverages", "prepared", "other"]

  /** `formData[field]`. */
  function Get(d: FormData, f: Field): string {
    match f
    case FoodType => d.foodType
    case Symptoms => d.symptoms
    case Location => d.location
    case Date => d.date
    case Description => d.description
    case Contact => d.contact
  }

  /** Two records that agree on every field are the same record. */
  lemma FieldsDetermineForm(d: FormData, e: FormData)
    requires forall f :: Get(d, f) == Get(e, f)
    ensures d == e
  {
    assert Get(d, FoodType) == Get(e, FoodType);
    assert Get(d, Symptoms) == Get(e, Symptoms);
    assert Get(d, Location) == Get(e, Location);
    assert Get(d, Date) == Get(e, Date);
    assert Get(d, Description) == Get(e, Description);
    assert Get(d, Contact) == Get(e, Contact);
  }

  /** The form's initial value, and the value `handleSubmit` restores. */
  function EmptyForm(): (d: FormData)
    ensures forall f :: Get(d, f) == ""
  {
    FormData("", "", "", "", "", "")
  }

  /** The updater `prev => ({ ...prev, [field]: value })`. */
  function Update(d: FormData, f: Field, v: string): (r: FormData)
    ensures Get(r, f) == v
    ensures forall g :: g != f ==> Get(r, g) == Get(d, g)
  {
    match f
    case FoodType => d.(foodType := v)
    case Symptoms => d.(symptoms := v)
    case Location => d.(location := v)
    case Date => d.(date := v)
    case Description => d.(description := v)
    case Contact => d.(contact := v)
  }

  /** Updates of two different fields can be applied in either order. */
  lemma UpdatesCommute(d: FormData, f: Field, v: string, g: Field, w: string)
    requires f != g
    ensures Update(Update(d, f, v), g, w) == Update(Update(d, g, w), f, v)
  {
  }

  /** Of two updates to the same field only the last one is kept. */
  lemma LastUpdateWins(d: FormData, f: Field, v: string, w: string)
    ensures Update(Update(d, f, v), f, w) == Update(d, f, w)
  {
  }

  /** Writing back the value a field already holds changes nothing. */
  lemma UpdateWithSameValue(d: FormData, f: Field)
    ensures Update(d, f, Get(d, f)) == d
  {
  }

  /** Only an update of `symptoms` can change the symptom text. */
  lemma SymptomsChangeOnlyThroughTheirField(d: FormData, f: Field, v: string)
    requires Get(Update(d, f, v), Symptoms) != Get(d, Symptoms)
    ensures f == Symptoms && v != Get(d, Symptoms)
  {
  }

  lemma FoodTypeOptionsDistinct()
    ensures |FoodTypeOptions| == 7
    ensures forall i, j :: 0 <= i < j < |FoodTypeOptions| ==> FoodTypeOptions[i] != FoodTypeOptions[j]
  {
  }

  /** The `formData` state cell and its two handlers. */
  class ReportingForm {
    var formData: FormData

    /** `useState` with every field empty. */
    constructor ()
      ensures formData == EmptyForm()
    {
      formData := EmptyForm();
    }

    /** `handleInputChange(field, value)`: only `field` changes. */
    method HandleInputChange(f: Field, v: string)
      modifies this
      ensures formData == Update(old(formData), f, v)
      ensures Get(formData, f) == v
      ensures forall g :: g != f ==> Get(formData, g) == Get(old(formData), g)
    {
      formData := Update(formData, f, v);
    }

    /**
     * `handleSubmit`: no validation and no failure path; the form is cleared
     * whatever it held, so submitting twice is submitting once.
     */
    method HandleSubmit()
      modifies this
      ensures formData == EmptyForm()
      ensures forall f :: Get(formData, f) == ""
    {
      formData := EmptyForm();
    }

    /** The food-type selector's `onValueChange`: one of the seven offered values into `foodType`. */
    method SelectFoodType(i: nat)
      requires i < |FoodTypeOptions|
      modifies this
      ensures formData == Update(old(formData), FoodType, FoodTypeOptions[i])
      ensures formData.foodType in FoodTypeOptions
    {
      HandleInputChange(FoodType, FoodTypeOptions[i]);
    }
  }
}

=== FILE: scanner_interface.dfy ===
/**
 * The scan simulator of the ScannerInterface component: three state cells
 * (`scanStatus`, `progress`, `result`) driven by the handlers `startScan`,
 * `connectScanner` and `resetScan`, and the pure `getResultVariant` mapping.
 *
 * Each `await` of `connectScanner` is a discrete step: `ConnectScanner` is the
 * part before the first pause and `Resume` is whichever part runs after the
 * pending pause. `Math.random()` is replaced by an injected real `r` in [0, 1).
 */
module ScannerInterface {

  datatype Option<T> = None | Some(value: T)

  /** The values of the `scanStatus` state cell. */
  datatype ScanStatus =
    | Idle | ConnectPrompt | Connecting | WaitingScan | Scanning | SendingData | Processing | Complete

  datatype ResultType = Safe | Warning | Danger

  datatype ScanResult = ScanResult(status: ResultType, confidence: nat, details: string, recommendations: seq<string>)

  /** The statuses in the order a session walks through them; `resetScan` closes the cycle. */
  const Cycle: seq<ScanStatus> :=
    [Idle, ConnectPrompt, Connecting, WaitingScan, Scanning, SendingData, Processing, Complete]

  /** The fixed outcome catalog from which `connectScanner` draws its result. */
  const Catalog: seq<ScanResult> := [
    ScanResult(Safe, 96,
      "No harmful bacteria detected. Sample appears safe for consumption.",
      ["Store in refrigerated conditions", "Consume within recommended timeframe"]),
    ScanResult(Warning, 78,
      "Moderate bacterial presence detected. Exercise caution.",
      ["Cook thoroughly before consumption", "Do not consume raw", "Check expiration date"]),
    ScanResult(Danger, 92,
      "High levels of harmful bacteria detected. Do not consume.",
      ["Dispose of item immediately", "Clean preparation surfaces", "Wash hands thoroughly"])
  ]

  /** The pauses (in milliseconds) that `connectScanner` awaits, in order. */
  const PhaseDelays: seq<nat> := [2000, 3000, 2500, 1500, 2000]

  /** Every value `connectScanner` passes to `setProgress`, preceded by the 0 of `startScan`. */
  const RunProgress: seq<nat> := [0, 15, 40, 65, 85, 95, 100]

  // ---------------------------------------------------------------------------
  // The order of the statuses

  /** Position of `s` in the session cycle. */
  function Rank(s: ScanStatus): (r: nat)
    ensures r < |Cycle| && Cycle[r] == s
  {
    match s
    case Idle => 0
    case ConnectPrompt => 1
    case Connecting => 2
    case WaitingScan => 3
    case Scanning => 4
    case SendingData => 5
    case Processing => 6
    case Complete => 7
  }

  /** The status that the one action available in `s` (a control or the pending continuation) leads to. */
  function Successor(s: ScanStatus): (t: ScanStatus)
    ensures Rank(t) == (Rank(s) + 1) % |Cycle|
  {
    match s
    case Idle => ConnectPrompt          // startScan
    case ConnectPrompt => Connecting    // connectScanner, before its first pause
    case Connecting => WaitingScan
    case WaitingScan => Scanning
    case Scanning => SendingData
    case SendingData => Processing
    case Processing => Complete
    case Complete => Idle               // resetScan
  }

  /** The statuses in which `connectScanner` is suspended at an `await`. */
  predicate Pending(s: ScanStatus) {
    s in {Connecting, WaitingScan, Scanning, SendingData, Processing}
  }

  /** The status after `n` available actions taken from `s`. */
  function Advance(s: ScanStatus, n: nat): ScanStatus {
    if n == 0 then s else Successor(Advance(s, n - 1))
  }

  lemma RankInjective(s: ScanStatus, t: ScanStatus)
    ensures Rank(s) == Rank(t) ==> s == t
  {
  }

  /** After `n` actions the session is `n` places further round the cycle. */
  lemma {:induction false} AdvanceRank(s: ScanStatus, n: nat)
    ensures Rank(Advance(s, n)) == (Rank(s) + n) % |Cycle|
  {
    if n > 0 {
      AdvanceRank(s, n - 1);
      var k := Rank(s) + n - 1;
      assert (k % 8 + 1) % 8 == (k + 1) % 8 by {
        if k % 8 == 7 { assert (k + 1) % 8 == 0; } else { assert (k + 1) % 8 == k % 8 + 1; }
      }
    }
  }

  /** From idle, the available actions visit the cycle in order, with no skip and no repeat. */
  lemma {:induction false} AdvanceFromIdle(n: nat)
    ensures Advance(Idle, n) == Cycle[n % |Cycle|]
    ensures Advance(Idle, n) == Idle <==> n % |Cycle| == 0
  {
    AdvanceRank(Idle, n);
    RankInjective(Advance(Idle, n), Cycle[n % |Cycle|]);
  }

  // ---------------------------------------------------------------------------
  // The controls the render offers

  datatype Control = StartScanButton | ConnectScannerButton | NewScanButton

  /** The one control rendered in each status, if any. */
  function OfferedControl(s: ScanStatus): (c: Option<Control>)
    ensures c == None <==> Pending(s)
    ensures c == Some(StartScanButton) <==> s == Idle
    ensures c == Some(ConnectScannerButton) <==> s == ConnectPrompt
    ensures c == Some(NewScanButton) <==> s == Complete
  {
    match s
    case Idle => Some(StartScanButton)
    case ConnectPrompt => Some(ConnectScannerButton)
    case Complete => Some(NewScanButton)
    case _ => None
  }

  /** No control is offered in two statuses. */
  lemma ControlOfferedOnce(s: ScanStatus, t: ScanStatus)
    requires OfferedControl(s).Some? && OfferedControl(s) == OfferedControl(t)
    ensures s == t
  {
  }

  // ---------------------------------------------------------------------------
  // Progress

  /** The progress shown while the status is `s`. */
  function Checkpoint(s: ScanStatus): (p: nat)
    ensures p <= 100
    ensures p == 100 <==> s == Complete
    ensures s in {Idle, ConnectPrompt, Connecting} <==> p == 0
  {
    match s
    case Idle => 0
    case ConnectPrompt => 0
    case Connecting => 0
    case WaitingScan => 15
    case Scanning => 40
    case SendingData => 65
    case Processing => 85
    case Complete => 100
  }

  /** Progress never goes down along the cycle. */
  lemma CheckpointMonotone(s: ScanStatus, t: ScanStatus)
    requires Rank(s) <= Rank(t)
    ensures Checkpoint(s) <= Checkpoint(t)
  {
  }

  /** From `connecting` on, every phase shows strictly more progress than the one before. */
  lemma CheckpointStrictDuringRun(s: ScanStatus, t: ScanStatus)
    requires Rank(Connecting) <= Rank(s) < Rank(t)
    ensures Checkpoint(s) < Checkpoint(t)
  {
  }

  predicate StrictlyIncreasing(xs: seq<int>) {
    forall i, j :: 0 <= i < j < |xs| ==> xs[i] < xs[j]
  }

  /** The statuses written since the session began, when the status is now `s`. */
  function SessionStatuses(s: ScanStatus): (w: seq<ScanStatus>)
    requires s != Idle
    ensures |w| == Rank(s) && w[|w| - 1] == s
    ensures forall i :: 0 <= i < |w| ==> Rank(w[i]) == i + 1
  {
    Cycle[1..Rank(s) + 1]
  }

  /** How many progress values have been written since the session began, when the status is now `s`. */
  function ProgressWriteCount(s: ScanStatus): (n: nat)
    requires s != Idle
    ensures 1 <= n <= |RunProgress|
  {
    match s
    case ConnectPrompt => 1
    case Connecting => 1
    case WaitingScan => 2
    case Scanning => 3
    case SendingData => 4
    case Processing => 5
    case Complete => 7
  }

  /** The progress values written since the session began, when the status is now `s`. */
  function SessionProgress(s: ScanStatus): seq<nat>
    requires s != Idle
  {
    RunProgress[..ProgressWriteCount(s)]
  }

  /**
   * The written progress values rise strictly, stay within 100, end at the value
   * shown for `s`, and contain 100 only once the session is complete.
   */
  lemma SessionProgressRises(s: ScanStatus)
    requires s != Idle
    ensures StrictlyIncreasing(SessionProgress(s))
    ensures forall i :: 0 <= i < |SessionProgress(s)| ==> SessionProgress(s)[i] <= 100
    ensures SessionProgress(s)[|SessionProgress(s)| - 1] == Checkpoint(s)
    ensures 100 in SessionProgress(s) <==> s == Complete
  {
  }

  /** The pause `connectScanner` awaits while the status is `s`: the k-th pending status waits the k-th delay. */
  function Pause(s: ScanStatus): (ms: nat)
    requires Pending(s)
    ensures Rank(Connecting) <= Rank(s) && ms == PhaseDelays[Rank(s) - Rank(Connecting)]
  {
    if s == Connecting then 2000
    else if s == WaitingScan then 3000
    else if s == Scanning then 2500
    else if s == SendingData then 1500
    else 2000
  }

  // ---------------------------------------------------------------------------
  // The outcome

  /** `Math.floor(r * results.length)` for a draw `r` of `Math.random()`. */
  function PickIndex(r: real): (i: nat)
    requires 0.0 <= r < 1.0
    ensures i < |Catalog|
    ensures i as real <= r * |Catalog| as real < i as real + 1.0
  {
    (r * |Catalog| as real).Floor
  }

  /** Every catalog entry is drawn by some `r`: `r == i / 3` picks entry `i`. */
  lemma PickCoversCatalog(i: nat)
    requires i < |Catalog|
    ensures 0.0 <= i as real / 3.0 < 1.0
    ensures PickIndex(i as real / 3.0) == i
  {
  }

  /** The three canned outcomes. */
  lemma CatalogEntries()
    ensures |Catalog| == 3
    ensures Catalog[0].status == Safe && Catalog[0].confidence == 96 && |Catalog[0].recommendations| == 2
    ensures Catalog[1].status == Warning && Catalog[1].confidence == 78 && |Catalog[1].recommendations| == 3
    ensures Catalog[2].status == Danger && Catalog[2].confidence == 92 && |Catalog[2].recommendations| == 3
  {
  }

  /** The result type as the string literal of its TypeScript type. */
  function ResultTypeName(t: ResultType): string {
    match t
    case Safe => "safe"
    case Warning => "warning"
    case Danger => "danger"
  }

  /** `getResultVariant`: the badge style used for a result. */
  function ResultVariant(t: ResultType): (v: string)
    ensures v in {"success", "warning", "danger"}
    ensures t == Safe ==> v == "success"
    ensures t != Safe <==> v == ResultTypeName(t)
  {
    match t
    case Safe => "success"
    case Warning => "warning"
    case Danger => "danger"
  }

  /** Distinct result types get distinct badges. */
  lemma ResultVariantInjective(a: ResultType, b: ResultType)
    requires ResultVariant(a) == ResultVariant(b)
    ensures a == b
  {
  }

  // ---------------------------------------------------------------------------
  // The component's state cells

  class Scanner {
    var scanStatus: ScanStatus
    var progress: nat
    var result: Option<ScanResult>
    /** Every value passed to `setScanStatus` since the current session began; empty in idle. */
    ghost var statusWrites: seq<ScanStatus>
    /** Every value passed to `setProgress` since the current session began; empty in idle. */
    ghost var progressWrites: seq<nat>
    /** Simulated milliseconds spent in the pauses of the current session. */
    ghost var elapsed: nat

    /** What holds whenever React renders the component, with React 18's automatic batching rendering the setters of one segment together. */
    ghost predicate Valid()
      reads this
    {
      && progress == Checkpoint(scanStatus)
      && (result.Some? <==> scanStatus == Complete)
      && (result.Some? ==> result.value in Catalog)
      && (scanStatus != Idle ==>
            statusWrites == SessionStatuses(scanStatus) && progressWrites == SessionProgress(scanStatus))
      && (scanStatus == Idle ==> statusWrites == [] && progressWrites == [])
    }

    /** The initial values of the three `useState` cells. */
    constructor ()
      ensures Valid()
      ensures scanStatus == Idle && progress == 0 && result == None
    {
      scanStatus, progress, result := Idle, 0, None;
      statusWrites, progressWrites, elapsed := [], [], 0;
    }

    /** `setScanStatus`: writes the cell and appends the value to the session's status log. */
    method SetScanStatus(s: ScanStatus)
      modifies this`scanStatus, this`statusWrites
      ensures scanStatus == s && statusWrites == old(statusWrites) + [s]
    {
      scanStatus := s;
      statusWrites := statusWrites + [s];
    }

    /** `setProgress`: writes the cell and appends the value to the session's progress log. */
    method SetProgress(p: nat)
      modifies this`progress, this`progressWrites
      ensures progress == p && progressWrites == old(progressWrites) + [p]
    {
      progress := p;
      progressWrites := progressWrites + [p];
    }

    /** `startScan`: begins a session from whatever state the cells hold. */
    method StartScan()
      requires Valid()
      modifies this
      ensures Valid()
      ensures scanStatus == ConnectPrompt && progress == 0 && result == None
      ensures old(scanStatus) == Idle ==> scanStatus == Successor(old(scanStatus))
      ensures statusWrites == [ConnectPrompt] && progressWrites == [0] && elapsed == 0
    {
      statusWrites, progressWrites, elapsed := [], [], 0;
      SetScanStatus(ConnectPrompt);
      SetProgress(0);
      result := None;
    }

    /** `connectScanner` up to its first `await`; only the connect-prompt control calls it. */
    method ConnectScanner()
      requires Valid() && scanStatus == ConnectPrompt
      modifies this
      ensures Valid()
      ensures scanStatus == Successor(old(scanStatus)) == Connecting
      ensures progress == old(progress) && result == None
      ensures statusWrites == old(statusWrites) + [Connecting] && progressWrites == old(progressWrites)
      ensures elapsed == old(elapsed)
    {
      SetScanStatus(Connecting);
    }

    /**
     * The part of `connectScanner` that runs once the pending pause has elapsed.
     * Only the last part, after `processing`, consumes the draw `r`.
     */
    method Resume(r: real)
      requires Valid() && Pending(scanStatus) && 0.0 <= r < 1.0
      modifies this
      ensures Valid()
      ensures scanStatus == Successor(old(scanStatus))
      ensures old(progress) < progress == Checkpoint(scanStatus)
      ensures result == if scanStatus == Complete then Some(Catalog[PickIndex(r)]) else None
      ensures statusWrites == old(statusWrites) + [scanStatus]
      ensures progressWrites == old(progressWrites) + (if scanStatus == Complete then [95, 100] else [progress])
      ensures elapsed == old(elapsed) + Pause(old(scanStatus))
    {
      elapsed := elapsed + Pause(scanStatus);
      match scanStatus
      case Connecting =>
        SetProgress(15);
        SetScanStatus(WaitingScan);
      case WaitingScan =>
        SetProgress(40);
        SetScanStatus(Scanning);
      case Scanning =>
        SetProgress(65);
        SetScanStatus(SendingData);
      case SendingData =>
        SetProgress(85);
        SetScanStatus(Processing);
      case Processing =>
        SetProgress(95);
        var results := Catalog;
        result := Some(results[PickIndex(r)]);
        SetProgress(100);
        SetScanStatus(Complete);
    }

    /**
     * `resetScan`: the state it leaves does not depend on the state before, so
     * twice is once. The session ends, so its write log is closed.
     */
    method ResetScan()
      requires Valid()
      modifies this
      ensures Valid()
      ensures scanStatus == Idle && progress == 0 && result == None
      ensures old(scanStatus) == Complete ==> scanStatus == Successor(old(scanStatus))
      ensures statusWrites == [] && progressWrites == [] && elapsed == 0
    {
      SetScanStatus(Idle);
      SetProgress(0);
      result := None;
      statusWrites, progressWrites, elapsed := [], [], 0;
    }

    /**
     * Whatever the render lets happen next in the current status: the one
     * control it shows, or, while a pause is pending, the continuation.
     */
    method Step(r: real)
      requires Valid() && 0.0 <= r < 1.0
      modifies this
      ensures Valid()
      ensures scanStatus == Successor(old(scanStatus))
      ensures progress == Checkpoint(scanStatus)
      ensures Rank(old(scanStatus)) < Rank(scanStatus) ==> old(progress) <= progress
    {
      match OfferedControl(scanStatus)
      case Some(StartScanButton) => StartScan();
      case Some(ConnectScannerButton) => ConnectScanner();
      case Some(NewScanButton) => ResetScan();
      case None => Resume(r);
    }
  }

  /**
   * One complete session as the controls allow it: start, connect, and the five
   * resumptions. Its outcome is the catalog entry the draw selects.
   */
  method FullSession(sc: Scanner, r: real)
    requires sc.Valid() && sc.scanStatus == Idle && 0.0 <= r < 1.0
    modifies sc
    ensures sc.Valid()
    ensures sc.scanStatus == Complete && sc.progress == 100 && sc.result == Some(Catalog[PickIndex(r)])
    ensures sc.statusWrites == Cycle[1..]
    ensures sc.progressWrites == RunProgress
    ensures sc.elapsed == 11000
  {
    sc.StartScan();
    sc.ConnectScanner();
    sc.Resume(r);
    sc.Resume(r);
    sc.Resume(r);
    sc.Resume(r);
    sc.Resume(r);
  }
}
